=== FILE: README.md ===
# Twitter Adventure Bot: chunking, reply chains and game-output draining

This project is a Dafny model of the sequential core of the Twitter
Adventure Bot. The bot runs an interactive-fiction interpreter (dfrotz) as a
child process and relays its output to Twitter as reply chains. The model
covers three pieces of logic:

- **Posting** (`TwitterConnection`, from `tab_src/twitter_connection.py`).
  `chop_text` cuts a text into fixed-width pieces. `send_message_chain`
  posts the pieces of every message, in order, as one reply chain. The
  Twitter API call `update_status(text, replyTo)` becomes a service oracle
  `Service`. Given the position of the call in the chain, the text and the
  id it replies to, the oracle returns the new status's id. Every sequence
  of ids a run can receive comes from some such oracle.
- **The game runner** (`FrotzRunner`, from `tab_src/frotz_runner.py`).
  - `read_output_line` is a non-blocking dequeue. It yields a line, `Empty`,
    or `Eof` (on the `''` end marker `read_output_line` raises `EOFError`).
  - `read_output_block` polls with a retry budget that only empty polls
    spend.
  - `write_command` and the writer thread `write_subp_input` form a FIFO
    command queue.
  - The output queue is a `Channel`: the lines queued now, plus the batches
    the reader thread will still enqueue. One batch lands before each later
    poll. Any run of the reader thread with one consumer in which the
    consumer's call returns is such a channel. A channel with no batches is
    a fixed snapshot.
- **The older runner** (`FrotzCmd` and `LegacyRunner`, from
  `tab_src/frotz_runner/`).
  - `print_output` is the drain loop that refills its budget after every
    line.
  - `readline` returns `None` on an empty queue.
  - `enqueue_output` copies lines until the `b''` sentinel, then enqueues
    one `b''`.

Each drain returns the record of its polls along with its result. The
contracts use this record to say how many empty polls (and so how many
sleeps) happened. They also use it to say where the loop stopped.

Modules: `Common` (option and result types, flattening, splitting at a
marker), `TwitterConnection`, `FrotzRunner`, `FrotzCmd`, `LegacyRunner`.

### Behaviour worth noting

- `chop_text` slices by character count, so a piece may end inside a
  word. Every piece but the last has exactly the full width.
- `read_output_block` never refills its budget: a line does not restore
  it. Only `print_output` refills after a line.
- `write_command` enqueues the command unchanged. The caller appends
  `"\n"` (`tab_src/frotz_cmd.py:37`).
- `send_message_chain` makes one `update_status` call per piece and
  nothing else. `check_mentions` is an empty function.
- `print_output` calls `runner.read_output_line()`. The runner class in its
  own directory offers only `readline`. It is modelled against
  `read_output_line` as `tab_src/frotz_runner.py` defines it. That method
  raises `EOFError` on `''`, and `print_output` catches only `Empty`, so
  its `''` branch is unreachable (see "## Findings").

## Model

| member | source | states |
|---|---|---|
| `TwitterConnection.ChopShape` | tab_src/twitter_connection.py:23-31 | the pieces joined back together give `txt` exactly; every piece is non-empty and at most `n` long; every piece but the last is exactly `n` long |
| `TwitterConnection.ChopCount` | tab_src/twitter_connection.py:31 | the number of pieces is `len(txt)/n` rounded up: the pieces cover the text, and one piece fewer would not; there are no pieces exactly when `txt` is empty |
| `TwitterConnection.ChopIsSlice` | tab_src/twitter_connection.py:31 | piece `k` is the Python slice `txt[k*n : k*n+n]`, as in `chop_text`'s list comprehension over `range(0, len(txt), n)` |
| `TwitterConnection.ChopUnique` | tab_src/twitter_connection.py:23-31 | converse: any list of pieces that joins to `txt` and has that shape is the list `chop_text` returns |
| `TwitterConnection.ChopText` | tab_src/twitter_connection.py:23-31 | width 0 fails (`range` raises); a negative width gives no pieces; a positive width gives pieces that join to `txt`, with the count rounded up |
| `TwitterConnection.ChopExamples` | tab_src/twitter_connection_test.py:13-17 | `chop_text("aabbccdd", 2)` is `["aa","bb","cc","dd"]`; `""` gives `[]`; a 266-character text gives 2 pieces at the default width 265 |
| `TwitterConnection.PostPieces` | tab_src/twitter_connection.py:90-97 | the inner loop posts one message's pieces in order; each post replies to the post before it; the ids it appends are the service's answers, one per piece |
| `TwitterConnection.SendMessageChain` | tab_src/twitter_connection.py:84-99 | the posted texts are the pieces of each message, messages in list order, with none skipped or reordered; the first post replies to `replyID`; every later post, across message boundaries too, replies to the id of the post before it; each id is what the service answered; the result is exactly those ids, one per post |
| `TwitterConnection.PostedMeans` | tab_src/twitter_connection.py:90-97 | building the chain post by post (each reply goes to the id just returned, starting from `replyID`) gives exactly the chains where the first post replies to `replyID`, every later post replies to its predecessor's id, and every id is the service's answer; and conversely |
| `TwitterConnection.MessagePiecesReassemble` | tab_src/twitter_connection.py:88-90 | joining the posted texts gives all the messages joined: no text is lost or duplicated |
| `TwitterConnection.MessagePiecesCount` | tab_src/twitter_connection.py:86-99 | there is one post per piece, so the sum of the piece counts; there are no posts exactly when every message is empty (an empty list included) |
| `TwitterConnection.SendMessageChainAsWritten` | tab_src/twitter_connection.py:84-99 | as written, the call returns exactly when every message is empty (an empty list included), and then returns `[]`; any other call raises `AttributeError` on `self.apiLock` before posting |
| `TwitterConnection.SendMessageChainAsWrittenFails` | tab_src/twitter_connection.py:92-93 | `send_message_chain(["hi"])` as written raises instead of posting `"hi"` |
| `FrotzRunner.ReadOutputLine` | tab_src/frotz_runner.py:90-98 | an empty queue gives `Empty` and is left unchanged; otherwise the head is removed; it gives `Eof` exactly when the head is `''`, and otherwise the head as a line |
| `FrotzRunner.PollChannel` | tab_src/frotz_runner.py:90-98 | one poll after the reader's next batch lands: the removed items followed by what is still pending equal what was pending before; an `Empty` poll leaves the queue empty |
| `FrotzRunner.DrainsConsumed` | tab_src/frotz_runner.py:90-98 | a sequence of polls, each made on the channel the previous one left (one reader batch landing before each), and none after `Eof`: its outcomes, in order, are a well-formed record whose removed items followed by what is still pending equal what was pending at the start, and exactly one batch per poll has landed |
| `FrotzRunner.DrainFacts` | tab_src/frotz_runner.py:124-143 | any drain returns, in queue order, a prefix of the lines before the first `''`; if it read the `''`, it returned exactly those lines and everything after the `''` is still pending |
| `FrotzRunner.ReadOutputBlock` | tab_src/frotz_runner.py:120-143 | only `Line` outcomes are returned, in order; nothing is lost or reordered; at most `num_retry` empty polls happen (no refill after a line), and no poll is made once the `num_retry`-th has happened, so a `''` is read only while budget is left; `num_retry <= 0` returns `[]` without polling; on `''` it stops at once with exactly the lines before it, and the rest stays queued; otherwise it stops right after the `num_retry`-th empty poll, with the queue empty; on a snapshot it returns the lines before the first `''`, which is all of them (after `num_retry` empty polls) when there is none |
| `FrotzRunner.PollBlock` | tab_src/frotz_runner.py:124-141 | the polling loop for a positive budget: its polls are a drain, the returned lines are the `Line` outcomes in order, at most `num_retry` polls are empty; if it read `''` that was before the budget was spent, and otherwise it stopped right after the `num_retry`-th empty poll, which found the queue empty |
| `FrotzRunner.BlockOnce` | tab_src/frotz_runner.py:126-141 | one pass of the loop body keeps the loop state: an empty poll spends one unit of the budget, a line is collected without refilling it, `''` sets the budget to 0; each pass either shrinks the budget or removes a queued item |
| `FrotzRunner.SnapshotDrain` | tab_src/frotz_runner.py:124-143 | on a fixed queue, a drain that stopped returned the lines before the first `''` and left only what follows it; it read the marker exactly when the queue held one |
| `FrotzRunner.WriteCommand` | tab_src/frotz_runner.py:147-152 | the command is appended unchanged to the submitted commands (no newline added); nothing is written to stdin yet |
| `FrotzRunner.WriteSubpInput` | tab_src/frotz_runner.py:17-21 | each writer step moves the oldest queued command to stdin, and an empty queue blocks; after `k` steps the first `k` queued commands have been written in order, and the submitted commands are unchanged |
| `FrotzRunner.CommandsFifo` | tab_src/frotz_runner.py:17-21 | under any interleaving of `write_command` calls and writer steps, the commands written so far stay a prefix, and written plus queued is every submitted command in submission order |
| `FrotzRunner.CommandsExample` | tab_src/frotz_runner.py:147-152 | `write_command("a")` then `write_command("b")`: once the writer has run twice, `"a"` then `"b"` have been written to stdin, whose text is `"ab"` |
| `FrotzCmd.PrintOutputAsWritten` | tab_src/frotz_runner/frotz_cmd.py:8-39 | as written: prints the lines in the order dequeued and never the end message; reading `''` raises `EOFError` out of the call (`Failure`), having printed exactly the lines before the `''`; otherwise it returns only after 5 empty polls in a row, with the queue empty; no poll is made once 5 empty polls have happened in a row; on a fixed queue it raises exactly when the queue holds `''` |
| `FrotzCmd.PrintOutput` | tab_src/frotz_runner/frotz_cmd.py:8-39 | as intended: the same polls and lines, and on `''` it prints "The dfrotz process ended." after exactly the lines before the `''` and returns; otherwise it returns only after 5 empty polls in a row, with the queue empty; nothing is lost or reordered |
| `FrotzCmd.PrintOutputRaises` | tab_src/frotz_runner/frotz_cmd.py:18-34 | as written, on the queue `["x", ""]` `print_output` prints `"x"` and raises instead of printing the end message |
| `FrotzCmd.PrintOutputEnds` | tab_src/frotz_runner/frotz_cmd.py:30-34 | as intended, on the queue `["x", ""]` it prints `"x"` and then "The dfrotz process ended." |
| `FrotzCmd.PollLoop` | tab_src/frotz_runner/frotz_cmd.py:14-39 | the loop's polls are a drain of the queue; the printed lines are the `Line` outcomes in order; it stops either at `''` or after 5 empty polls in a row with the queue empty, and never polls with the budget spent |
| `FrotzCmd.PollOnce` | tab_src/frotz_runner/frotz_cmd.py:18-39 | one pass of the loop body keeps the loop state: an empty poll spends one unit of the budget, a line is printed and refills it to 5, `''` ends the loop; each pass either removes a queued item or shrinks the budget |
| `FrotzCmd.QuietStep` | tab_src/frotz_runner/frotz_cmd.py:16-38 | the run of empty polls grows by one on `Empty` and restarts on any other outcome, so the budget stays within 0..5 |
| `LegacyRunner.Readline` | tab_src/frotz_runner/frotz_runner.py:27-33 | an empty queue gives `None` and is left unchanged; otherwise the head is returned and removed, the `b''` marker included |
| `LegacyRunner.ReadlineAllIsQueue` | tab_src/frotz_runner/frotz_runner.py:27-33 | calling `readline` until `None` returns exactly the queued items, in order |
| `LegacyRunner.EnqueueOutput` | tab_src/frotz_runner/frotz_runner.py:6-10 | enqueues the `readline` results before the first `b''`, in order; the thread finishes exactly when `b''` is read, and then adds exactly one `b''` marker; while no `b''` has been read, every result is enqueued and no marker is added; on a text-mode pipe, whose results are all text, the thread never finishes and enqueues every line |

## Left out

- Process control: `Popen`, `kill`, `poll` and `return_code` (`tab_src/frotz_runner.py:44-71`, `156-173`). These are OS process operations.
- Threads and locks: the reader and writer threads are modelled only through what they do to the queues. `TwitterConnection`'s API lock has no effect in a sequential model.
- `read_subp_output` (`tab_src/frotz_runner.py:11-15`): the `Channel` feed stands for it. Its loop waits for `b''` on a text-mode pipe, which returns `''`. So it may enqueue `''` many times, and the channel's contents are left arbitrary to allow that.
- Endless output: the reader's output is taken to be finite (the `Channel` feed is a finite sequence). A reader that keeps enqueueing lines forever is not modelled; a line never spends `read_output_block`'s budget (`tab_src/frotz_runner.py:139-141`) and refills `print_output`'s (`tab_src/frotz_runner/frotz_cmd.py:38`), so under such a reader neither call returns.
- Sleeping: `time.sleep(wait_time)` is a wall-clock wait. Each `Empty` poll stands for one sleep, and `wait_time` is not modelled.
- Twitter plumbing: key loading, `tweepy` authentication, the mention thread and the `check_mentions` stub, and `__exit__`'s stop event (`tab_src/twitter_connection.py:11-19`, `35-80`). These are network and file I/O.
- `SendMessageChain`: an exception raised by `update_status` would propagate out of `send_message_chain`. The model's service always answers, so that path is not modelled.
- The bot's main loop (`tab_src/tab.py`), the console drivers (`tab_src/frotz_cmd.py`, `tab_src/twitter_cmd.py`, `main` in `tab_src/frotz_runner/frotz_cmd.py`) and `tab_src/tab_test.py` (it tests a function the bot does not define). These are orchestration and console I/O.
- Stdin buffering: the game's stdin is opened line-buffered (`bufsize = 1`, `tab_src/frotz_runner.py:46-49`), so text written without a newline may sit in Python's buffer. `StdinText` is the text written to the stream, not what the game has read.
- `tab_src/frotz-runner/frotz_runner.py`: this file is not valid Python, so it is not part of this model.

## Findings

| source | as written | input that shows it | evidently intended | confidence | as-written member | corrected member |
|---|---|---|---|---|---|---|
| tab_src/twitter_connection.py:92-93 | `send_message_chain` uses `self.apiLock` and `self.api`, but the connection only sets `_apiLock` and `_api` (lines 54, 57) | `send_message_chain(["hi"])` raises `AttributeError` before posting anything | lock `_apiLock` and post with `_api`, threading the reply chain | high; not executed | `TwitterConnection.SendMessageChainAsWritten` | `TwitterConnection.SendMessageChain` |
| tab_src/frotz_runner/frotz_cmd.py:18-34 | `print_output` catches only `Empty`, but `read_output_line` raises `EOFError` on `''` (`tab_src/frotz_runner.py:92-94`), so the `output == ''` branch never runs | queue `["x", ""]`: prints `x`, then `EOFError` escapes `print_output` without the end message | on `''`, print "The dfrotz process ended." and return | high; not executed | `FrotzCmd.PrintOutputAsWritten` | `FrotzCmd.PrintOutput` |

=== FILE: common.dfy ===
/** Small shared vocabulary: optional values, results, and flattening of
    nested sequences (used both for joining text pieces and for joining
    queue batches). */
module Common {

  /** Python's `None` or a present value. */
  datatype Option<+T> = None | Some(value: T)

  /** A Python call that either returns a value or raises. */
  datatype Result<+R, +E> = Success(value: R) | Failure(error: E)

  function Min(a: int, b: int): int
  {
    if a <= b then a else b
  }

  /** Concatenation of all the inner sequences, in order. */
  function Flatten<T>(ss: seq<seq<T>>): seq<T>
  {
    if ss == [] then [] else ss[0] + Flatten(ss[1..])
  }

  /** Flattening distributes over concatenation of the outer sequence. */
  lemma {:induction false} FlattenAppend<T>(a: seq<seq<T>>, b: seq<seq<T>>)
    ensures Flatten(a + b) == Flatten(a) + Flatten(b)
    decreases |a|
  {
    if a == [] {
      assert a + b == b;
    } else {
      assert (a + b)[1..] == a[1..] + b;
      FlattenAppend(a[1..], b);
    }
  }

  /** Removing `a` then `b` from the front of `z` leaves what removing
      `a + b` leaves. */
  lemma Regroup<T>(a: seq<T>, b: seq<T>, x: seq<T>, y: seq<T>, z: seq<T>)
    requires a + y == z
    requires b + x == y
    ensures (a + b) + x == z
  {
    assert (a + b) + x == a + (b + x);
  }

  lemma Assoc<T>(a: seq<T>, b: seq<T>, c: seq<T>)
    ensures (a + b) + c == a + (b + c)
  {
  }

  lemma NotCounted<T>(s: seq<T>, x: T)
    requires x !in s
    ensures multiset(s)[x] == 0
  {
    assert x !in multiset(s);
  }

  /** The items before the first occurrence of `m` (all of `s` if none). */
  function TakeUntil<T(==)>(s: seq<T>, m: T): seq<T>
  {
    if s == [] then []
    else if s[0] == m then []
    else [s[0]] + TakeUntil(s[1..], m)
  }

  /** The items after the first occurrence of `m` (nothing if none). */
  function DropThrough<T(==)>(s: seq<T>, m: T): seq<T>
  {
    if s == [] then []
    else if s[0] == m then s[1..]
    else DropThrough(s[1..], m)
  }

  /** Without `m`, everything is before it and nothing after. */
  lemma {:induction false} NoMarker<T>(s: seq<T>, m: T)
    requires m !in s
    ensures TakeUntil(s, m) == s && DropThrough(s, m) == []
    decreases |s|
  {
    if s != [] {
      NoMarker(s[1..], m);
    }
  }

  /** Splitting at the first occurrence of `m` is unique. */
  lemma {:induction false} SplitAtMarker<T>(before: seq<T>, after: seq<T>, s: seq<T>, m: T)
    requires m !in before
    requires s == before + [m] + after
    ensures before == TakeUntil(s, m) && after == DropThrough(s, m)
    decreases |before|
  {
    if before == [] {
      assert s[0] == m && s[1..] == after;
    } else {
      assert s[0] == before[0];
      assert s[1..] == before[1..] + [m] + after;
      SplitAtMarker(before[1..], after, s[1..], m);
    }
  }

  /** A prefix of `s` free of `m` is a prefix of `TakeUntil(s, m)`. */
  lemma {:induction false} PrefixTakeUntil<T>(p: seq<T>, s: seq<T>, m: T)
    requires m !in p
    requires |p| <= |s| && s[..|p|] == p
    ensures |p| <= |TakeUntil(s, m)| && TakeUntil(s, m)[..|p|] == p
    decreases |p|
  {
    if p != [] {
      assert s[0] == p[0];
      assert s[1..][..|p| - 1] == p[1..];
      PrefixTakeUntil(p[1..], s[1..], m);
    }
  }
}

=== FILE: frotz_cmd.dfy ===
/** The console test driver of the older runner: `print_output`, which
    prints game output until the end marker or until the queue has stayed
    empty for a while. Unlike `read_output_block`, it refills its retry
    budget after every line, so it only gives up after `Budget` empty polls
    in a row. Printing is modelled as appending to `out`; `print_output`
    calls `read_output_line`, modelled in `FrotzRunner`. */
module FrotzCmd {
  import opened Common
  import opened FrotzRunner

  /** Retry budget, refilled after each line. */
  const Budget: nat := 5

  /** Printed when the end marker is read. */
  const EndedMessage: string := "The dfrotz process ended."

  /** Number of `Empty` polls at the end of `ps`, i.e. since the last line. */
  function Quiet(ps: seq<Poll>): nat
  {
    if ps == [] || ps[|ps| - 1] != Empty then 0 else 1 + Quiet(ps[..|ps| - 1])
  }

  /** Before every poll in `ps`, fewer than `Budget` empty polls had
      happened in a row: the budget was never spent when a poll was made. */
  predicate BudgetLeft(ps: seq<Poll>)
  {
    forall k :: 0 <= k < |ps| ==> Quiet(ps[..k]) < Budget
  }

  /** What `print_output` printed, with the channel it leaves and its polls. */
  datatype Printed = Printed(out: seq<string>, channel: Channel, polls: seq<Poll>)

  /** The state reached by a call that returned or raised. */
  function Reached(r: Result<Printed, Printed>): Printed
  {
    match r
    case Success(p) => p
    case Failure(p) => p
  }

  /** `print_output(runner)` as written, with `runner.read_output_line()`
      raising `EOFError` on the end marker: only `Empty` is caught, so the
      branch for `output == ''` is never reached and the `EOFError`
      propagates (`Failure`, carrying what was printed before it). An empty
      queue spends one unit of the budget (and sleeps); a line is printed
      and refills the budget. So the call returns only after `Budget` empty
      polls in a row, and never polls once that many have happened. */
  method PrintOutputAsWritten(c: Channel) returns (r: Result<Printed, Printed>)
    ensures Drains(c, Reached(r).polls, Reached(r).channel)
    ensures Reached(r).out == Lines(Reached(r).polls)
    ensures r.Failure? <==> Ended(Reached(r).polls)
    ensures r.Failure? ==> Reached(r).out == TakeUntil(Pending(c), EndMarker) && Pending(Reached(r).channel) == DropThrough(Pending(c), EndMarker)
    ensures r.Success? ==> Quiet(Reached(r).polls) == Budget && Reached(r).channel.queue == []
    ensures BudgetLeft(Reached(r).polls)
    ensures c.feed == [] ==>
      && Reached(r).out == TakeUntil(c.queue, EndMarker)
      && Reached(r).channel == Channel(DropThrough(c.queue, EndMarker), [])
      && (r.Failure? <==> EndMarker in c.queue)
  {
    var p, ended := PollLoop(c);
    PrintedFacts(c, p.polls, p.channel);
    if ended {
      r := Failure(p);
    } else {
      r := Success(p);
    }
  }

  /** The `while retries > 0` loop of `print_output`, stopping at the end
      marker (`ended`). */
  method PollLoop(c: Channel) returns (p: Printed, ended: bool)
    ensures Drains(c, p.polls, p.channel)
    ensures p.out == Lines(p.polls)
    ensures ended <==> Ended(p.polls)
    ensures !ended ==> Quiet(p.polls) == Budget && p.channel.queue == []
    ensures BudgetLeft(p.polls)
  {
    var retries := Budget;
    ended := false;
    p := Printed([], c, []);
    while retries > 0 && !ended
      invariant Polling(c, p, retries, ended)
      decreases |Pending(p.channel)|, retries
    {
      p, retries, ended := PollOnce(c, p, retries);
    }
  }

  /** The state of `print_output`'s loop after the polls `p.polls`: they are
      a drain of `c`, the lines among them were printed, `retries` is what
      is left of the budget, and no poll was made with the budget spent. */
  predicate Polling(c: Channel, p: Printed, retries: int, ended: bool)
  {
    && Drains(c, p.polls, p.channel)
    && p.out == Lines(p.polls)
    && (ended <==> Ended(p.polls))
    && (!ended ==> 0 <= retries <= Budget && retries == Budget - Quiet(p.polls))
    && BudgetLeft(p.polls)
    && (p.polls != [] && p.polls[|p.polls| - 1] == Empty ==> p.channel.queue == [])
  }

  /** One pass of the loop body: poll once; an empty queue spends one unit
      of the budget, a line is printed and refills it, the end marker ends
      the loop. Either an item is removed or the budget shrinks. */
  method PollOnce(c: Channel, p: Printed, retries: int) returns (p': Printed, retries': int, ended: bool)
    requires Polling(c, p, retries, false) && retries > 0
    ensures Polling(c, p', retries', ended)
    ensures |Pending(p'.channel)| < |Pending(p.channel)| || (|Pending(p'.channel)| == |Pending(p.channel)| && 0 <= retries' < retries)
  {
    var st := PollChannel(p.channel);
    DrainsStep(c, p.polls, p.channel);
    QuietStep(p.polls, st.poll);
    PollsSnoc(p.polls, st.poll);
    ended := false;
    match st.poll
    case Empty =>
      retries' := retries - 1;
      p' := Printed(p.out, st.next, p.polls + [st.poll]);
    case Eof =>
      retries' := retries;
      ended := true;
      p' := Printed(p.out, st.next, p.polls + [st.poll]);
    case Line(s) =>
      retries' := Budget;
      p' := Printed(p.out + [s], st.next, p.polls + [st.poll]);
  }

  /** `print_output` as intended: the end marker reaches the `output == ''`
      branch, which prints `EndedMessage` and returns. Otherwise the same
      polls and lines as `PrintOutputAsWritten`. */
  method PrintOutput(c: Channel) returns (r: Printed)
    ensures Drains(c, r.polls, r.channel)
    ensures r.out == Lines(r.polls) + (if Ended(r.polls) then [EndedMessage] else [])
    ensures Ended(r.polls) ==> Lines(r.polls) == TakeUntil(Pending(c), EndMarker) && Pending(r.channel) == DropThrough(Pending(c), EndMarker)
    ensures !Ended(r.polls) ==> Quiet(r.polls) == Budget && r.channel.queue == []
    ensures BudgetLeft(r.polls)
    ensures c.feed == [] ==>
      && Lines(r.polls) == TakeUntil(c.queue, EndMarker)
      && r.channel == Channel(DropThrough(c.queue, EndMarker), [])
      && (Ended(r.polls) <==> EndMarker in c.queue)
  {
    var run := PrintOutputAsWritten(c);
    match run
    case Success(p) =>
      r := p;
    case Failure(p) =>
      r := Printed(p.out + [EndedMessage], p.channel, p.polls);
  }

  /** The queue of the examples below: output "x", then the end marker. */
  lemma XThenEnd()
    ensures TakeUntil(["x", EndMarker], EndMarker) == ["x"]
    ensures EndMarker in ["x", EndMarker]
  {
    assert ["x", EndMarker][1..] == [EndMarker];
  }

  /** As written, on output "x" and then the end marker, `print_output`
      prints "x" and raises instead of printing the end message. */
  method PrintOutputRaises() returns (r: Result<Printed, Printed>)
    ensures r.Failure? && r.error.out == ["x"]
  {
    XThenEnd();
    r := PrintOutputAsWritten(Channel(["x", EndMarker], []));
  }

  /** As intended, the same output prints "x" and then the end message. */
  method PrintOutputEnds() returns (r: Printed)
    ensures r.out == ["x", EndedMessage]
  {
    XThenEnd();
    r := PrintOutput(Channel(["x", EndMarker], []));
  }

  /** One more poll, made while fewer than `Budget` empty polls had
      happened in a row: the run of empty polls grows by one or restarts. */
  lemma QuietStep(ps: seq<Poll>, p: Poll)
    requires BudgetLeft(ps)
    requires Quiet(ps) < Budget
    ensures BudgetLeft(ps + [p])
    ensures Quiet(ps + [p]) == if p == Empty then Quiet(ps) + 1 else 0
  {
    var ps' := ps + [p];
    assert ps'[..|ps|] == ps;
    forall k | 0 <= k < |ps'|
      ensures Quiet(ps'[..k]) < Budget
    {
      if k < |ps| {
        assert ps'[..k] == ps[..k];
      }
    }
  }

  /** The facts about the lines printed that follow from the polls being a
      drain that stopped at the end marker or at an empty queue. */
  lemma PrintedFacts(c: Channel, ps: seq<Poll>, c': Channel)
    requires Drains(c, ps, c')
    requires Ended(ps) || c'.queue == []
    ensures Ended(ps) ==> Lines(ps) == TakeUntil(Pending(c), EndMarker) && Pending(c') == DropThrough(Pending(c), EndMarker)
    ensures c.feed == [] ==>
      && Lines(ps) == TakeUntil(c.queue, EndMarker)
      && c' == Channel(DropThrough(c.queue, EndMarker), [])
      && (Ended(ps) <==> EndMarker in c.queue)
  {
    DrainFacts(c, ps, c');
    if c.feed == [] {
      SnapshotDrain(c, ps, c');
    }
  }
}

=== FILE: frotz_runner.dfy ===
/** The game side of the bot (`FrotzRunner`): a dfrotz child process whose
    stdout a reader thread copies line by line onto an output queue, and
    whose stdin a writer thread feeds from an input queue. The process and
    the threads are not modelled; the output queue is a `Channel` (what is
    queued now, plus the batches the reader thread will still add) and the
    input queue is a `Commands` record. */
module FrotzRunner {
  import opened Common

  /** The line the reader thread enqueues once stdout is exhausted: in text
      mode `readline` returns '' at end of file. */
  const EndMarker: string := ""

  /** Outcome of one non-blocking read: a line, `queue.Empty`, or the
      `EOFError` raised on reading the end marker. */
  datatype Poll = Line(text: string) | Empty | Eof

  datatype Polled = Polled(poll: Poll, rest: seq<string>)

  /** The queue items a poll removed. */
  function Taken(p: Poll): seq<string>
  {
    match p
    case Line(s) => [s]
    case Empty => []
    case Eof => [EndMarker]
  }

  /** `read_output_line`: take the head of the queue without blocking; an
      empty queue is `Empty`, the end marker is `Eof`, anything else is
      returned as a line. */
  function ReadOutputLine(q: seq<string>): (r: Polled)
    ensures Taken(r.poll) + r.rest == q
    ensures r.poll == Empty <==> q == []
    ensures r.poll == Eof <==> q != [] && q[0] == EndMarker
    ensures r.poll.Line? ==> r.poll.text != EndMarker
  {
    if q == [] then Polled(Empty, q)
    else if q[0] == EndMarker then Polled(Eof, q[1..])
    else Polled(Line(q[0]), q[1..])
  }

  // ---------------------------------------------------------------------
  // The output queue and its producer

  /** The output queue as its consumer sees it: the lines queued now, and
      the batches the reader thread will still enqueue, batch `k` landing
      just before the consumer's `k`-th later poll (an empty batch means the
      reader added nothing in between). Any run of the reader and a single
      consumer in which the consumer's call returns is one such channel;
      `feed == []` is a snapshot. */
  datatype Channel = Channel(queue: seq<string>, feed: seq<seq<string>>)

  /** Everything the consumer can still dequeue, in order. */
  function Pending(c: Channel): seq<string>
  {
    c.queue + Flatten(c.feed)
  }

  /** Result of one poll of a channel. */
  datatype Step = Step(poll: Poll, next: Channel)

  /** One poll: the next batch (if any) lands, then `read_output_line`. */
  function PollChannel(c: Channel): (r: Step)
    ensures Taken(r.poll) + Pending(r.next) == Pending(c)
    ensures r.poll.Line? ==> r.poll.text != EndMarker
    ensures r.next.feed == if c.feed == [] then [] else c.feed[1..]
    ensures r.poll == Empty ==> r.next.queue == []
  {
    var q := if c.feed == [] then c.queue else c.queue + c.feed[0];
    var rest := if c.feed == [] then [] else c.feed[1..];
    assert c.feed != [] ==> Flatten(c.feed) == c.feed[0] + Flatten(rest);
    var p := ReadOutputLine(q);
    Step(p.poll, Channel(p.rest, rest))
  }

  /** The queue items a sequence of polls removed, in order. */
  function TakenAll(ps: seq<Poll>): seq<string>
  {
    if ps == [] then [] else TakenAll(ps[..|ps| - 1]) + Taken(ps[|ps| - 1])
  }

  /** The lines a sequence of polls returned, in order. */
  function Lines(ps: seq<Poll>): seq<string>
  {
    if ps == [] then []
    else Lines(ps[..|ps| - 1]) + (match ps[|ps| - 1] case Line(s) => [s] case _ => [])
  }

  /** How many polls found the queue empty (each is followed by a sleep). */
  function EmptyPolls(ps: seq<Poll>): nat
  {
    if ps == [] then 0 else EmptyPolls(ps[..|ps| - 1]) + (if ps[|ps| - 1] == Empty then 1 else 0)
  }

  /** The polls stopped at the end marker. */
  predicate Ended(ps: seq<Poll>)
  {
    |ps| > 0 && ps[|ps| - 1] == Eof
  }

  /** The last poll found the queue empty. */
  predicate EndsEmpty(ps: seq<Poll>)
  {
    ps != [] && ps[|ps| - 1] == Empty
  }

  /** A poll record a drain loop can produce: `Eof` only as the last poll,
      and no line equal to the end marker. */
  predicate WellFormed(ps: seq<Poll>)
  {
    && (forall i :: 0 <= i < |ps| - 1 ==> ps[i] != Eof)
    && (forall i :: 0 <= i < |ps| ==> ps[i].Line? ==> ps[i].text != EndMarker)
  }

  /** The record of some polls and the channel they leave. */
  datatype Trace = Trace(polls: seq<Poll>, channel: Channel)

  /** `n` polls of `c` in a row, each through `PollChannel`. */
  function PollTimes(c: Channel, n: nat): Trace
    decreases n
  {
    if n == 0 then Trace([], c)
    else
      var t := PollTimes(c, n - 1);
      var st := PollChannel(t.channel);
      Trace(t.polls + [st.poll], st.next)
  }

  /** `ps` are the polls a single consumer loop made on `c`, leaving `c'`:
      exactly the outcomes of polling `c` that many times, and the loop
      stopped at the first `Eof`. */
  predicate Drains(c: Channel, ps: seq<Poll>, c': Channel)
  {
    && PollTimes(c, |ps|) == Trace(ps, c')
    && forall i :: 0 <= i < |ps| - 1 ==> ps[i] != Eof
  }

  /** What a sequence of polls removed: items from the front of what was
      pending, one batch of the reader thread landing before each poll,
      with nothing lost or reordered. */
  predicate Consumed(c: Channel, ps: seq<Poll>, c': Channel)
  {
    && WellFormed(ps)
    && TakenAll(ps) + Pending(c') == Pending(c)
    && c'.feed == c.feed[Min(|ps|, |c.feed|)..]
  }

  /** What a well-formed poll record removed: its lines, then the end marker
      if it ended. */
  lemma {:induction false} TakenOfWellFormed(ps: seq<Poll>)
    requires WellFormed(ps)
    ensures TakenAll(ps) == Lines(ps) + (if Ended(ps) then [EndMarker] else [])
    ensures EndMarker !in Lines(ps)
    decreases |ps|
  {
    if ps != [] {
      var init := ps[..|ps| - 1];
      assert WellFormed(init) by {
        forall i | 0 <= i < |init| ensures init[i] == ps[i] { }
      }
      TakenOfWellFormed(init);
      assert !Ended(init);
    }
  }

  /** What any drain returned: a prefix of the lines before the first end
      marker, in queue order; and if it stopped at the marker, exactly those
      lines, with everything after the marker left pending. */
  lemma DrainFacts(c: Channel, ps: seq<Poll>, c': Channel)
    requires Drains(c, ps, c')
    ensures |Lines(ps)| <= |TakeUntil(Pending(c), EndMarker)|
    ensures TakeUntil(Pending(c), EndMarker)[..|Lines(ps)|] == Lines(ps)
    ensures Ended(ps) ==> Lines(ps) == TakeUntil(Pending(c), EndMarker) && Pending(c') == DropThrough(Pending(c), EndMarker)
    ensures !Ended(ps) ==> Lines(ps) + Pending(c') == Pending(c)
  {
    DrainsConsumed(c, ps, c');
    TakenOfWellFormed(ps);
    var s := Pending(c);
    var lines := Lines(ps);
    if Ended(ps) {
      SplitAtMarker(lines, Pending(c'), s, EndMarker);
    }
    assert s[..|lines|] == lines;
    PrefixTakeUntil(lines, s, EndMarker);
  }

  /** The polls recorded so far, extended by one more poll of the channel,
      are still a drain. */
  lemma DrainsStep(c: Channel, ps: seq<Poll>, c': Channel)
    requires Drains(c, ps, c')
    requires !Ended(ps)
    ensures var st := PollChannel(c');
      Drains(c, ps + [st.poll], st.next)
  {
    var st := PollChannel(c');
    var ps' := ps + [st.poll];
    assert PollTimes(c, |ps'|) == Trace(ps', st.next);
    forall i | 0 <= i < |ps'| - 1
      ensures ps'[i] != Eof
    {
      assert ps'[i] == ps[i];
    }
  }

  /** A drain removes items in order and lets one batch land per poll:
      every poll takes from the front of what was pending, and nothing is
      lost or reordered. */
  lemma {:induction false} DrainsConsumed(c: Channel, ps: seq<Poll>, c': Channel)
    requires Drains(c, ps, c')
    ensures Consumed(c, ps, c')
    decreases |ps|
  {
    if ps != [] {
      var init := ps[..|ps| - 1];
      var mid := PollTimes(c, |ps| - 1).channel;
      DrainsLast(c, ps, c');
      DrainsConsumed(c, init, mid);
      ConsumedStep(c, init, mid);
    }
  }

  /** A non-empty drain is a shorter drain followed by one more poll. */
  lemma DrainsLast(c: Channel, ps: seq<Poll>, c': Channel)
    requires Drains(c, ps, c') && ps != []
    ensures var n := |ps|; var mid := PollTimes(c, n - 1).channel;
      && Drains(c, ps[..n - 1], mid)
      && !Ended(ps[..n - 1])
      && ps == ps[..n - 1] + [PollChannel(mid).poll]
      && c' == PollChannel(mid).next
  {
    var n := |ps|;
    var init := ps[..n - 1];
    var t := PollTimes(c, n - 1);
    var st := PollChannel(t.channel);
    assert t.polls + [st.poll] == ps && st.next == c';
    assert t.polls == init by {
      assert ps[..n - 1] == (t.polls + [st.poll])[..n - 1];
    }
    forall i | 0 <= i < n - 2
      ensures init[i] != Eof
    {
      assert init[i] == ps[i];
    }
    if n >= 2 {
      assert init[n - 2] == ps[n - 2];
    }
  }

  /** One more poll keeps a consumed record consumed. */
  lemma ConsumedStep(c: Channel, ps: seq<Poll>, c': Channel)
    requires Consumed(c, ps, c') && !Ended(ps)
    ensures var st := PollChannel(c');
      Consumed(c, ps + [st.poll], st.next)
  {
    var st := PollChannel(c');
    WellFormedStep(ps, st.poll);
    TakenStep(c, ps, c', st.poll, st.next);
    FeedStep(c.feed, c'.feed, |ps|);
    ConsumedIntro(c, ps + [st.poll], st.next);
  }

  /** The items removed by one more poll follow those removed before. */
  lemma TakenStep(c: Channel, ps: seq<Poll>, c': Channel, p: Poll, next: Channel)
    requires TakenAll(ps) + Pending(c') == Pending(c)
    requires Taken(p) + Pending(next) == Pending(c')
    ensures TakenAll(ps + [p]) + Pending(next) == Pending(c)
  {
    PollsSnoc(ps, p);
    Regroup(TakenAll(ps), Taken(p), Pending(next), Pending(c'), Pending(c));
  }

  /** How one more poll extends each summary of a poll record. */
  lemma PollsSnoc(ps: seq<Poll>, p: Poll)
    ensures TakenAll(ps + [p]) == TakenAll(ps) + Taken(p)
    ensures Lines(ps + [p]) == Lines(ps) + (if p.Line? then [p.text] else [])
    ensures EmptyPolls(ps + [p]) == EmptyPolls(ps) + (if p == Empty then 1 else 0)
    ensures Ended(ps + [p]) <==> p == Eof
  {
    assert (ps + [p])[..|ps|] == ps;
  }

  lemma WellFormedStep(ps: seq<Poll>, p: Poll)
    requires WellFormed(ps) && !Ended(ps)
    requires p.Line? ==> p.text != EndMarker
    ensures WellFormed(ps + [p])
  {
    var ps' := ps + [p];
    forall i | 0 <= i < |ps'| - 1
      ensures ps'[i] != Eof
    {
      assert ps'[i] == ps[i];
    }
  }

  /** One more batch landed: the remaining feed is one batch shorter. */
  lemma FeedStep(feed: seq<seq<string>>, rest: seq<seq<string>>, polls: nat)
    requires rest == feed[Min(polls, |feed|)..]
    ensures (if rest == [] then [] else rest[1..]) == feed[Min(polls + 1, |feed|)..]
  {
    if rest != [] {
      var m := Min(polls, |feed|);
      assert feed[m..][1..] == feed[m + 1..];
    }
  }

  lemma ConsumedIntro(c: Channel, ps: seq<Poll>, c': Channel)
    requires WellFormed(ps)
    requires TakenAll(ps) + Pending(c') == Pending(c)
    requires c'.feed == c.feed[Min(|ps|, |c.feed|)..]
    ensures Consumed(c, ps, c')
  {
  }

  // ---------------------------------------------------------------------
  // read_output_block

  /** What `read_output_block` returns (`lines`), together with the state it
      leaves the channel in and the record of its polls. */
  datatype Block = Block(lines: seq<string>, channel: Channel, polls: seq<Poll>)

  /** `read_output_block(num_retry=5)`: poll until the budget is spent or the
      end marker is read. Only a poll that finds the queue empty spends the
      budget (and sleeps); a line is collected and does not refill it; the
      end marker stops the loop at once. */
  method ReadOutputBlock(c: Channel, numRetry: int := 5) returns (r: Block)
    ensures Drains(c, r.polls, r.channel)
    ensures r.lines == Lines(r.polls)
    ensures |r.lines| <= |TakeUntil(Pending(c), EndMarker)| && TakeUntil(Pending(c), EndMarker)[..|r.lines|] == r.lines
    ensures Ended(r.polls) ==> r.lines == TakeUntil(Pending(c), EndMarker) && Pending(r.channel) == DropThrough(Pending(c), EndMarker)
    ensures EmptyPolls(r.polls) <= if numRetry > 0 then numRetry else 0
    ensures numRetry <= 0 ==> r == Block([], c, [])
    ensures numRetry > 0 ==>
      if Ended(r.polls) then EmptyPolls(r.polls) < numRetry
      else EmptyPolls(r.polls) == numRetry && r.channel.queue == [] && EndsEmpty(r.polls)
    ensures numRetry > 0 && c.feed == [] ==>
      && r.lines == TakeUntil(c.queue, EndMarker)
      && r.channel == Channel(DropThrough(c.queue, EndMarker), [])
      && (Ended(r.polls) <==> EndMarker in c.queue)
  {
    if numRetry <= 0 {
      // the loop body never runs
      return Block([], c, []);
    }
    r := PollBlock(c, numRetry);
    DrainFacts(c, r.polls, r.channel);
    if c.feed == [] {
      SnapshotDrain(c, r.polls, r.channel);
    }
  }

  /** The `while retries > 0` loop of `read_output_block`, for a positive
      budget: it stops at the end marker or right after the budget's last
      empty poll, which found the queue empty. */
  method PollBlock(c: Channel, numRetry: int) returns (r: Block)
    requires numRetry > 0
    ensures Drains(c, r.polls, r.channel)
    ensures r.lines == Lines(r.polls)
    ensures EmptyPolls(r.polls) <= numRetry
    ensures !Ended(r.polls) ==> EmptyPolls(r.polls) == numRetry && r.channel.queue == []
    ensures !Ended(r.polls) ==> EndsEmpty(r.polls)
    ensures Ended(r.polls) ==> EmptyPolls(r.polls) < numRetry
  {
    var retries := numRetry;
    r := Block([], c, []);
    while retries > 0
      invariant Blocking(c, numRetry, r, retries)
      decreases retries, |Pending(r.channel)|
    {
      r, retries := BlockOnce(c, numRetry, r, retries);
    }
  }

  /** The state of `read_output_block`'s loop after the polls `r.polls`:
      they are a drain of `c`, the lines among them were collected,
      `retries` is what is left of the budget (zero once `''` was read),
      and no poll was made with the budget spent. */
  predicate Blocking(c: Channel, numRetry: int, r: Block, retries: int)
  {
    && Drains(c, r.polls, r.channel)
    && r.lines == Lines(r.polls)
    && (Ended(r.polls) ==> retries == 0 && EmptyPolls(r.polls) < numRetry)
    && (!Ended(r.polls) ==> retries == numRetry - EmptyPolls(r.polls) >= 0)
    && EmptyPolls(r.polls) <= numRetry
    && (EndsEmpty(r.polls) ==> r.channel.queue == [])
    && (r.polls != [] && r.polls[|r.polls| - 1].Line? ==> retries > 0)
  }

  /** One pass of the loop body: poll once; an empty queue spends one unit
      of the budget, a line is collected without refilling it, the end
      marker empties the budget. Either the budget shrinks or an item is
      removed. */
  method BlockOnce(c: Channel, numRetry: int, r: Block, retries: int) returns (r': Block, retries': int)
    requires Blocking(c, numRetry, r, retries) && retries > 0
    ensures Blocking(c, numRetry, r', retries')
    ensures retries' < retries || (retries' == retries && |Pending(r'.channel)| < |Pending(r.channel)|)
    ensures retries' >= 0
  {
    var st := PollChannel(r.channel);
    DrainsStep(c, r.polls, r.channel);
    PollsSnoc(r.polls, st.poll);
    retries' := if st.poll == Empty then retries - 1 else if st.poll == Eof then 0 else retries;
    r' := Block(r.lines + (if st.poll.Line? then [st.poll.text] else []), st.next, r.polls + [st.poll]);
  }

  /** On a snapshot (no later arrivals) a drain that stopped either read the
      end marker or emptied the queue; in both cases it returned exactly the
      lines before the first end marker. */
  lemma SnapshotDrain(c: Channel, ps: seq<Poll>, c': Channel)
    requires Drains(c, ps, c')
    requires c.feed == []
    requires Ended(ps) || c'.queue == []
    ensures Lines(ps) == TakeUntil(c.queue, EndMarker)
    ensures c' == Channel(DropThrough(c.queue, EndMarker), [])
    ensures Ended(ps) <==> EndMarker in c.queue
  {
    DrainsConsumed(c, ps, c');
    assert Pending(c) == c.queue;
    assert c'.feed == [];
    assert Pending(c') == c'.queue;
    DrainFacts(c, ps, c');
    TakenOfWellFormed(ps);
    if !Ended(ps) {
      assert Lines(ps) == c.queue;
      NoMarker(c.queue, EndMarker);
    }
  }

  // ---------------------------------------------------------------------
  // The command side: write_command and write_subp_input

  /** The input queue (`queued`), and the commands the writer thread has
      already written to the game's stdin (`written`), in order. */
  datatype Commands = Commands(queued: seq<string>, written: seq<string>)

  /** Every command ever submitted, in submission order. */
  function Submitted(c: Commands): seq<string>
  {
    c.written + c.queued
  }

  /** The text written to the game's stdin stream so far, in order. Whether
      the game can already read it depends on the stream's buffering, which
      is not modelled. */
  function StdinText(c: Commands): string
  {
    Flatten(c.written)
  }

  /** `write_command(cmd)`: enqueue `cmd` as given (no line terminator is
      added) and return at once; nothing is written yet. */
  function WriteCommand(c: Commands, cmd: string): (r: Commands)
    ensures Submitted(r) == Submitted(c) + [cmd]
    ensures r.written == c.written
  {
    Commands(c.queued + [cmd], c.written)
  }

  /** `steps` iterations of the writer thread's loop in `write_subp_input`:
      each takes the oldest queued command and writes it to stdin; on an
      empty queue the thread blocks, so nothing changes. */
  function WriteSubpInput(c: Commands, steps: nat): (r: Commands)
    ensures Submitted(r) == Submitted(c)
    ensures r.written == c.written + c.queued[..Min(steps, |c.queued|)]
    decreases steps
  {
    if steps == 0 || c.queued == [] then c
    else
      var q := c.queued;
      MoveHead(c.written, q, steps);
      WriteSubpInput(Commands(q[1..], c.written + [q[0]]), steps - 1)
  }

  /** Moving the head of the queue to the written commands keeps their
      concatenation, and the first `steps` of the queue end up written. */
  lemma MoveHead(w: seq<string>, q: seq<string>, steps: nat)
    requires q != [] && steps > 0
    ensures (w + [q[0]]) + q[1..] == w + q
    ensures (w + [q[0]]) + q[1..][..Min(steps - 1, |q| - 1)] == w + q[..Min(steps, |q|)]
  {
    var m := Min(steps, |q|);
    assert q == [q[0]] + q[1..];
    assert q[1..][..m - 1] == q[1..m];
    assert q[..m] == [q[0]] + q[1..m];
  }

  /** One thing that can happen to the input queue: the caller submits a
      command, or the writer thread takes one step. */
  datatype Action = Submit(cmd: string) | WriterStep

  function Run(c: Commands, acts: seq<Action>): Commands
    decreases |acts|
  {
    if acts == [] then c
    else
      var c' := match acts[0]
        case Submit(cmd) => WriteCommand(c, cmd)
        case WriterStep => WriteSubpInput(c, 1);
      Run(c', acts[1..])
  }

  /** The commands an interleaving submits, in order. */
  function SubmittedBy(acts: seq<Action>): seq<string>
  {
    if acts == [] then []
    else (match acts[0] case Submit(cmd) => [cmd] case WriterStep => []) + SubmittedBy(acts[1..])
  }

  /** First in, first out: under any interleaving of `write_command` calls
      and writer steps, the commands written to stdin are a prefix of
      the submitted commands in submission order, and the rest are still
      queued. */
  lemma {:induction false} CommandsFifo(c: Commands, acts: seq<Action>)
    ensures Submitted(Run(c, acts)) == Submitted(c) + SubmittedBy(acts)
    ensures |c.written| <= |Run(c, acts).written|
    ensures Run(c, acts).written[..|c.written|] == c.written
    decreases |acts|
  {
    if acts != [] {
      var c' := match acts[0]
        case Submit(cmd) => WriteCommand(c, cmd)
        case WriterStep => WriteSubpInput(c, 1);
      CommandsFifo(c', acts[1..]);
      var w := Run(c, acts).written;
      assert w[..|c'.written|][..|c.written|] == w[..|c.written|];
    }
  }

  /** `write_command("a")` then `write_command("b")`: once the writer has
      run, "a" and then "b" have been written to the stdin stream, which
      holds "ab": no newline is added between them. */
  lemma CommandsExample()
    ensures var c := WriteCommand(WriteCommand(Commands([], []), "a"), "b");
      WriteSubpInput(c, 2).written == ["a", "b"] && StdinText(WriteSubpInput(c, 2)) == "ab"
  {
    var c := WriteCommand(WriteCommand(Commands([], []), "a"), "b");
    var w := WriteSubpInput(c, 2);
    assert w.written == ["a", "b"];
    assert Flatten(["a", "b"]) == "a" + Flatten(["b"]);
    assert Flatten(["b"]) == "b" + Flatten([]);
  }
}

=== FILE: legacy_runner.dfy ===
/** The older runner (`tab_src/frotz_runner/frotz_runner.py`): a reader
    thread `enqueue_output` copies the lines `readline` returns onto a queue
    until `readline` returns the bytes sentinel `b''`, then enqueues one
    `b''`; `readline` on the runner dequeues without blocking and returns
    `None` on an empty queue. */
module LegacyRunner {
  import opened Common

  /** A queue item: a text line, or a bytes object such as the marker. The
      runner opens the pipe in text mode, so `readline` yields text. */
  datatype Item = Text(s: string) | Bytes(b: seq<bv8>)

  /** `b''`: both the sentinel that ends the reader's loop and the marker it
      enqueues afterwards. */
  const Marker: Item := Bytes([])

  datatype Readout = Readout(item: Option<Item>, rest: seq<Item>)

  /** `FrotzRunner.readline`: the head of the queue, removed, or `None` when
      the queue is empty. The marker is returned like any other item. */
  function Readline(q: seq<Item>): (r: Readout)
    ensures r.item == None <==> q == []
    ensures r.item == None ==> r.rest == q
    ensures r.item.Some? ==> [r.item.value] + r.rest == q
  {
    if q == [] then Readout(None, q) else Readout(Some(q[0]), q[1..])
  }

  /** Calling `readline` until it returns `None`, collecting the items. */
  function ReadlineAll(q: seq<Item>): seq<Item>
    decreases |q|
  {
    var r := Readline(q);
    match r.item
    case None => []
    case Some(x) => [x] + ReadlineAll(r.rest)
  }

  /** `readline` hands out the queue in order, marker included, and
      nothing else: repeated calls return exactly the queued items. */
  lemma {:induction false} ReadlineAllIsQueue(q: seq<Item>)
    ensures ReadlineAll(q) == q
    decreases |q|
  {
    if q != [] {
      ReadlineAllIsQueue(q[1..]);
    }
  }

  /** What a text-mode pipe's `readline` yields: text only, never bytes. */
  predicate TextMode(lines: seq<Item>)
  {
    forall k :: 0 <= k < |lines| ==> lines[k].Text?
  }

  /** The reader thread's state: the output queue, and whether the thread
      has finished (closed the pipe) or is still inside its read loop. */
  datatype Reader = Reader(queue: seq<Item>, closed: bool)

  /** `enqueue_output(out, queue)` given the results `lines` of the
      successive `out.readline()` calls it would see: every result before
      the first `b''` is enqueued in order; on reaching `b''` one `b''` is
      enqueued and the pipe closed. If `lines` holds no `b''`, the thread is
      still reading. The runner's pipe is in text mode, so every line is
      `Text` and the thread never finishes: it enqueues every line and
      never the marker. */
  method EnqueueOutput(lines: seq<Item>, queue: seq<Item>) returns (r: Reader)
    ensures r.closed <==> Marker in lines
    ensures r.queue == queue + TakeUntil(lines, Marker) + (if r.closed then [Marker] else [])
    ensures !r.closed ==> r.queue == queue + lines
    ensures multiset(r.queue)[Marker] == multiset(queue)[Marker] + (if r.closed then 1 else 0)
    ensures TextMode(lines) ==> !r.closed && r.queue == queue + lines
  {
    var q := queue;
    var i := 0;
    while i < |lines| && lines[i] != Marker
      invariant 0 <= i <= |lines|
      invariant Marker !in lines[..i]
      invariant q == queue + lines[..i]
    {
      q := q + [lines[i]];
      i := i + 1;
    }
    StopIndex(lines, i);
    NotCounted(lines[..i], Marker);
    r := Reader(q + (if i < |lines| then [Marker] else []), i < |lines|);
  }

  /** Where the copying loop stops: at the first `b''`, or at the end of
      the stream when there is none. */
  lemma StopIndex(lines: seq<Item>, i: nat)
    requires i <= |lines| && Marker !in lines[..i]
    requires i == |lines| || lines[i] == Marker
    ensures i < |lines| <==> Marker in lines
    ensures lines[..i] == TakeUntil(lines, Marker)
  {
    if i < |lines| {
      assert lines == lines[..i] + [Marker] + lines[i + 1..];
      SplitAtMarker(lines[..i], lines[i + 1..], lines, Marker);
    } else {
      assert lines[..i] == lines;
      NoMarker(lines, Marker);
    }
  }
}

=== FILE: twitter_connection.dfy ===
/** The posting side of the bot: `chop_text`, which cuts a text into
    fixed-width pieces, and `send_message_chain`, which posts the pieces of
    a list of messages as one reply chain. The Twitter API is replaced by a
    service oracle that may answer each call with any id. */
module TwitterConnection {
  import opened Common

  /** Default piece width of `chop_text`. */
  const DefaultWidth: nat := 265

  /** The error `range(0, len(txt), 0)` raises. */
  datatype ChopError = ZeroStep

  /** Python slicing `s[i:j]` for non-negative bounds: both ends are clamped
      to the length of `s`, and an inverted range is empty. */
  function PySlice<T>(s: seq<T>, i: nat, j: nat): seq<T>
  {
    var lo := Min(i, |s|);
    var hi := Min(j, |s|);
    if hi <= lo then [] else s[lo..hi]
  }

  /** `chop_text(txt, n)` for a positive width `n`: consecutive slices of
      `txt` of width `n`, the last one possibly shorter. */
  function Chop(txt: string, n: nat): seq<string>
    requires n > 0
    decreases |txt|
  {
    if txt == [] then []
    else if |txt| <= n then [txt]
    else [txt[..n]] + Chop(txt[n..], n)
  }

  /** Joining the pieces gives the text back; every piece is non-empty and
      at most `n` long, and all but the last are exactly `n` long. */
  lemma {:induction false} ChopShape(txt: string, n: nat)
    requires n > 0
    ensures Flatten(Chop(txt, n)) == txt
    ensures forall k :: 0 <= k < |Chop(txt, n)| ==> 0 < |Chop(txt, n)[k]| <= n
    ensures forall k :: 0 <= k < |Chop(txt, n)| - 1 ==> |Chop(txt, n)[k]| == n
    decreases |txt|
  {
    if |txt| > n {
      var pieces := Chop(txt, n);
      var rest := Chop(txt[n..], n);
      ChopShape(txt[n..], n);
      assert pieces == [txt[..n]] + rest;
      assert pieces[1..] == rest;
      assert txt == txt[..n] + txt[n..];
      forall k | 1 <= k < |pieces|
        ensures pieces[k] == rest[k - 1]
      {
      }
    } else if txt != [] {
      assert Flatten([txt]) == txt + Flatten([]);
    }
  }

  /** `k * n`, by repeated addition, so that the proofs below by
      induction on `k` stay linear. */
  function Times(k: nat, n: nat): nat
  {
    if k == 0 then 0 else Times(k - 1, n) + n
  }

  lemma {:induction false} TimesIsProduct(k: nat, n: nat)
    ensures Times(k, n) == k * n
    decreases k
  {
    if k > 0 {
      TimesIsProduct(k - 1, n);
      assert k * n == (k - 1) * n + n;
    }
  }

  lemma {:induction false} ChopCovers(txt: string, n: nat)
    requires n > 0
    ensures |txt| <= Times(|Chop(txt, n)|, n)
    ensures Chop(txt, n) != [] ==> Times(|Chop(txt, n)| - 1, n) < |txt|
    decreases |txt|
  {
    if |txt| > n {
      ChopCovers(txt[n..], n);
      assert |Chop(txt, n)| == |Chop(txt[n..], n)| + 1;
    }
  }

  /** The number of pieces is `len(txt) / n` rounded up: the pieces cover
      the text, and one piece fewer would not. */
  lemma ChopCount(txt: string, n: nat)
    requires n > 0
    ensures |txt| <= |Chop(txt, n)| * n
    ensures Chop(txt, n) != [] ==> (|Chop(txt, n)| - 1) * n < |txt|
    ensures Chop(txt, n) == [] <==> txt == []
  {
    var c := |Chop(txt, n)|;
    ChopCovers(txt, n);
    TimesIsProduct(c, n);
    if c > 0 {
      TimesIsProduct(c - 1, n);
    }
  }

  /** `chop_text(txt, n=265)` for any integer width: a zero step makes `range`
      raise, a negative step gives an empty range and so no pieces. */
  function ChopText(txt: string, n: int := DefaultWidth): (r: Result<seq<string>, ChopError>)
    ensures r.Failure? <==> n == 0
    ensures n < 0 ==> r == Success([])
    ensures n > 0 ==> r.Success? && Flatten(r.value) == txt
    ensures n > 0 ==> |txt| <= |r.value| * n && (r.value != [] ==> (|r.value| - 1) * n < |txt|)
  {
    if n == 0 then Failure(ZeroStep)
    else if n < 0 then Success([])
    else ChopCount(txt, n); ChopShape(txt, n); Success(Chop(txt, n))
  }

  lemma ChopFirst(txt: string, n: nat)
    requires n > 0
    requires txt != []
    ensures Chop(txt, n)[0] == PySlice(txt, 0, n)
  {
    if |txt| <= n {
      assert txt[..|txt|] == txt;
    }
  }

  lemma {:induction false} ChopPiece(txt: string, n: nat, k: nat)
    requires n > 0
    requires k < |Chop(txt, n)|
    ensures Chop(txt, n)[k] == PySlice(txt, Times(k, n), Times(k, n) + n)
    decreases k, 1
  {
    if k == 0 {
      ChopFirst(txt, n);
    } else {
      ChopLaterPiece(txt, n, k);
    }
  }

  /** A later piece is a piece of the text after the first piece. */
  lemma {:induction false} ChopLaterPiece(txt: string, n: nat, k: nat)
    requires n > 0
    requires 0 < k < |Chop(txt, n)|
    ensures Chop(txt, n)[k] == PySlice(txt, Times(k, n), Times(k, n) + n)
    decreases k, 0
  {
    var m := Times(k - 1, n);
    var rest := Chop(txt[n..], n);
    assert |txt| > n;
    assert Chop(txt, n)[k] == rest[k - 1];
    ChopPiece(txt[n..], n, k - 1);
    SliceShift(txt, n, m, m + n);
  }

  /** The `k`-th piece is the slice `txt[k*n : k*n+n]`: the pieces are the
      ones `chop_text`'s list comprehension over `range(0, len(txt), n)`
      builds. */
  lemma ChopIsSlice(txt: string, n: nat, k: nat)
    requires n > 0
    requires k < |Chop(txt, n)|
    ensures Chop(txt, n)[k] == PySlice(txt, k * n, k * n + n)
  {
    ChopPiece(txt, n, k);
    TimesIsProduct(k, n);
  }

  /** Slicing after dropping a prefix is slicing further along. */
  lemma SliceShift<T>(s: seq<T>, d: nat, i: nat, j: nat)
    requires d <= |s|
    requires i <= j
    ensures PySlice(s[d..], i, j) == PySlice(s, i + d, j + d)
  {
    var lo := Min(i, |s| - d);
    var hi := Min(j, |s| - d);
    if lo < hi {
      assert s[d..][lo..hi] == s[lo + d..hi + d];
    }
  }

  /** Any list of pieces that reassembles `txt`, whose pieces are non-empty
      and at most `n` long, and whose non-final pieces are exactly `n` long,
      is the one `chop_text` returns: the shape determines the chopping. */
  lemma {:induction false} ChopUnique(txt: string, n: nat, ps: seq<string>)
    requires n > 0
    requires Flatten(ps) == txt
    requires forall k :: 0 <= k < |ps| ==> 0 < |ps[k]| <= n
    requires forall k :: 0 <= k < |ps| - 1 ==> |ps[k]| == n
    ensures ps == Chop(txt, n)
    decreases |ps|
  {
    if ps == [] {
    } else if |ps| == 1 {
      assert Flatten(ps) == ps[0] + Flatten(ps[1..]);
      assert txt == ps[0];
    } else {
      assert txt == ps[0] + Flatten(ps[1..]);
      assert |ps[0]| == n;
      assert Flatten(ps[1..]) == ps[1] + Flatten(ps[2..]);
      assert |txt| > n;
      assert txt[..n] == ps[0];
      assert txt[n..] == Flatten(ps[1..]);
      ChopUnique(txt[n..], n, ps[1..]);
    }
  }

  /** The unit test of `chop_text`, and the default width. */
  lemma ChopExamples()
    ensures ChopText("aabbccdd", 2) == Success(["aa", "bb", "cc", "dd"])
    ensures ChopText("", 2) == Success([])
    ensures ChopText("abc", 0) == Failure(ZeroStep)
    ensures |Chop(seq(266, _ => 'x'), DefaultWidth)| == 2
  {
    var long := seq(266, _ => 'x');
    assert |long[265..]| == 1;
    assert Chop("dd", 2) == ["dd"];
    assert Chop("ccdd", 2) == ["cc"] + Chop("dd", 2) by {
      assert "ccdd"[..2] == "cc" && "ccdd"[2..] == "dd";
    }
    assert Chop("bbccdd", 2) == ["bb"] + Chop("ccdd", 2) by {
      assert "bbccdd"[..2] == "bb" && "bbccdd"[2..] == "ccdd";
    }
    assert Chop("aabbccdd", 2) == ["aa"] + Chop("bbccdd", 2) by {
      assert "aabbccdd"[..2] == "aa" && "aabbccdd"[2..] == "bbccdd";
    }
    assert Chop("aabbccdd", 2) == ["aa", "bb", "cc", "dd"];
    assert ChopText("aabbccdd", 2) == Success(Chop("aabbccdd", 2));
  }

  // ---------------------------------------------------------------------
  // send_message_chain

  type Id = int

  /** One call of `update_status(text, replyTo)` and the id it returned. */
  datatype Post = Post(text: string, replyTo: Option<Id>, id: Id)

  /** The remote service: given the position of a call within this chain,
      the new status and the id it replies to, the id of the new status.
      Any sequence of answers a run can observe is given by some such
      function. */
  type Service = (nat, string, Option<Id>) -> Id

  /** The pieces `send_message_chain` posts: each message chopped with the
      default width, messages in list order. */
  function MessagePieces(msgs: seq<string>): seq<string>
  {
    if msgs == [] then [] else Chop(msgs[0], DefaultWidth) + MessagePieces(msgs[1..])
  }

  /** Sum over the messages of their piece counts. */
  function PieceCount(msgs: seq<string>): nat
  {
    if msgs == [] then 0 else |Chop(msgs[0], DefaultWidth)| + PieceCount(msgs[1..])
  }

  function Texts(posts: seq<Post>): (r: seq<string>)
    ensures |r| == |posts|
  {
    if posts == [] then [] else [posts[0].text] + Texts(posts[1..])
  }

  function Ids(posts: seq<Post>): (r: seq<Id>)
    ensures |r| == |posts|
  {
    if posts == [] then [] else [posts[0].id] + Ids(posts[1..])
  }

  /** The first post replies to `first`; every later post replies to the id
      the post before it received. */
  predicate IsReplyChain(posts: seq<Post>, first: Option<Id>)
  {
    && (|posts| > 0 ==> posts[0].replyTo == first)
    && forall i :: 0 < i < |posts| ==> posts[i].replyTo == Some(posts[i - 1].id)
  }

  /** Every recorded id is the service's answer to that call, made at that
      position in the chain. */
  predicate Answered(posts: seq<Post>, service: Service)
  {
    forall i :: 0 <= i < |posts| ==> posts[i].id == service(i, posts[i].text, posts[i].replyTo)
  }

  /** `posts` as `send_message_chain` builds it, one post at a time: each
      post replies to the one before it (the first to `first`) and carries
      the id the service answered for it. */
  predicate Posted(posts: seq<Post>, first: Option<Id>, service: Service)
    decreases |posts|
  {
    posts == [] ||
      var init := posts[..|posts| - 1];
      var last := posts[|posts| - 1];
      && Posted(init, first, service)
      && last.replyTo == NextReply(init, first)
      && last.id == service(|init|, last.text, last.replyTo)
  }

  /** The step-by-step construction and the pointwise description of a
      reply chain agree, in both directions. */
  lemma {:induction false} PostedMeans(posts: seq<Post>, first: Option<Id>, service: Service)
    ensures Posted(posts, first, service) <==> IsReplyChain(posts, first) && Answered(posts, service)
    decreases |posts|
  {
    if posts != [] {
      var n := |posts|;
      var init := posts[..n - 1];
      PostedMeans(init, first, service);
      assert forall i :: 0 <= i < n - 1 ==> init[i] == posts[i];
    }
  }

  lemma MessagePiecesSnoc(msgs: seq<string>, i: nat)
    requires i < |msgs|
    ensures MessagePieces(msgs[..i + 1]) == MessagePieces(msgs[..i]) + Chop(msgs[i], DefaultWidth)
    decreases i
  {
    if i == 0 {
      assert msgs[..1][1..] == [];
    } else {
      assert msgs[..i + 1][1..] == msgs[1..][..i];
      assert msgs[..i][1..] == msgs[1..][..i - 1];
      MessagePiecesSnoc(msgs[1..], i - 1);
    }
  }

  /** The reply to use for the next post of a chain that began by replying
      to `first`. */
  function NextReply(posts: seq<Post>, first: Option<Id>): Option<Id>
  {
    if posts == [] then first else Some(posts[|posts| - 1].id)
  }

  /** The chain `posts` with one more post of `text`, replying to the
      previous post and carrying the id the service answers. */
  function Extend(posts: seq<Post>, first: Option<Id>, service: Service, text: string): seq<Post>
  {
    var reply := NextReply(posts, first);
    posts + [Post(text, reply, service(|posts|, text, reply))]
  }

  /** One more post, replying to the previous one and answered by the
      service, keeps the chain a chain. */
  lemma ChainSnoc(posts: seq<Post>, first: Option<Id>, service: Service, text: string)
    requires Posted(posts, first, service)
    ensures Posted(Extend(posts, first, service, text), first, service)
  {
    var ps := Extend(posts, first, service, text);
    assert ps[..|ps| - 1] == posts;
  }

  /** The texts and ids of the extended chain gain one entry each. */
  lemma RecordsSnoc(posts: seq<Post>, first: Option<Id>, service: Service, text: string)
    ensures var ps := Extend(posts, first, service, text);
      && Texts(ps) == Texts(posts) + [text]
      && Ids(ps) == Ids(posts) + [ps[|posts|].id]
  {
    var ps := Extend(posts, first, service, text);
    var post := ps[|posts|];
    assert ps == posts + [post];
    assert [post][1..] == [];
    assert Texts([post]) == [text] && Ids([post]) == [post.id];
    TextsAppend(posts, [post]);
    IdsAppend(posts, [post]);
  }

  /** The inner loop of `send_message_chain`: posts `pieces` in order, each
      replying to the one before, extending the chain in `posts`; returns
      the new ids in order. */
  method PostPieces(pieces: seq<string>, posts: seq<Post>, first: Option<Id>, service: Service)
    returns (posts': seq<Post>, ids: seq<Id>)
    requires Posted(posts, first, service)
    ensures Posted(posts', first, service)
    ensures Texts(posts') == Texts(posts) + pieces
    ensures Ids(posts') == Ids(posts) + ids
    ensures |posts'| == |posts| + |pieces|
    decreases |pieces|
  {
    if pieces == [] {
      return posts, [];
    }
    ChainSnoc(posts, first, service, pieces[0]);
    RecordsSnoc(posts, first, service, pieces[0]);
    var next := Extend(posts, first, service, pieces[0]);
    var id := next[|posts|].id;
    var rest;
    posts', rest := PostPieces(pieces[1..], next, first, service);
    ids := [id] + rest;
    assert [pieces[0]] + pieces[1..] == pieces;
    Assoc(Texts(posts), [pieces[0]], pieces[1..]);
    Assoc(Ids(posts), [id], rest);
  }

  lemma {:induction false} IdsAppend(a: seq<Post>, b: seq<Post>)
    ensures Ids(a + b) == Ids(a) + Ids(b)
    decreases |a|
  {
    if a == [] {
      assert a + b == b;
    } else {
      assert (a + b)[1..] == a[1..] + b;
      IdsAppend(a[1..], b);
    }
  }

  lemma {:induction false} TextsAppend(a: seq<Post>, b: seq<Post>)
    ensures Texts(a + b) == Texts(a) + Texts(b)
    decreases |a|
  {
    if a == [] {
      assert a + b == b;
    } else {
      assert (a + b)[1..] == a[1..] + b;
      TextsAppend(a[1..], b);
    }
  }

  /** `send_message_chain(msgList, replyID=None)` with the connection's
      `update_status` given by `service`. Returns the ids, and the log of
      calls made. */
  method SendMessageChain(service: Service, msgs: seq<string>, replyTo: Option<Id> := None)
    returns (ids: seq<Id>, posts: seq<Post>)
    ensures Texts(posts) == MessagePieces(msgs)
    ensures IsReplyChain(posts, replyTo)
    ensures Answered(posts, service)
    ensures ids == Ids(posts)
  {
    ids := [];
    posts := [];
    var i := 0;
    while i < |msgs|
      invariant 0 <= i <= |msgs|
      invariant Texts(posts) == MessagePieces(msgs[..i])
      invariant Posted(posts, replyTo, service)
      invariant ids == Ids(posts)
    {
      var posts', newIds := PostPieces(Chop(msgs[i], DefaultWidth), posts, replyTo, service);
      ids := ids + newIds;
      posts := posts';
      MessagePiecesSnoc(msgs, i);
      i := i + 1;
    }
    assert msgs[..i] == msgs;
    PostedMeans(posts, replyTo, service);
  }

  /** Posting reassembles the messages: the posted texts, joined, are the
      messages joined. */
  lemma {:induction false} MessagePiecesReassemble(msgs: seq<string>)
    ensures Flatten(MessagePieces(msgs)) == Flatten(msgs)
    decreases |msgs|
  {
    if msgs != [] {
      MessagePiecesReassemble(msgs[1..]);
      ChopShape(msgs[0], DefaultWidth);
      FlattenAppend(Chop(msgs[0], DefaultWidth), MessagePieces(msgs[1..]));
    }
  }

  /** One post per piece: the number of posts is the sum of the piece
      counts, and it is zero exactly when every message is empty. */
  lemma {:induction false} MessagePiecesCount(msgs: seq<string>)
    ensures |MessagePieces(msgs)| == PieceCount(msgs)
    ensures PieceCount(msgs) == 0 <==> forall k :: 0 <= k < |msgs| ==> msgs[k] == ""
    decreases |msgs|
  {
    if msgs != [] {
      MessagePiecesCount(msgs[1..]);
      if msgs[0] != "" {
        assert |Chop(msgs[0], DefaultWidth)| > 0;
      }
      assert forall k :: 1 <= k < |msgs| ==> msgs[k] == msgs[1..][k - 1];
    }
  }

  // ---------------------------------------------------------------------
  // send_message_chain as written

  /** `send_message_chain` reads `self.apiLock` and `self.api`, but the
      connection only ever sets `_apiLock` and `_api`. */
  datatype AttributeError = MissingAttribute(name: string)

  /** `send_message_chain` exactly as written: the attribute lookup
      `self.apiLock` runs before the first post and raises, so any call with
      at least one piece fails before posting anything. */
  function SendMessageChainAsWritten(msgs: seq<string>, replyTo: Option<Id> := None): (r: Result<seq<Id>, AttributeError>)
    ensures r.Success? <==> forall k :: 0 <= k < |msgs| ==> msgs[k] == ""
    ensures r.Success? ==> r.value == []
    ensures r.Failure? ==> r.error == MissingAttribute("apiLock")
  {
    MessagePiecesCount(msgs);
    if MessagePieces(msgs) == [] then Success([]) else Failure(MissingAttribute("apiLock"))
  }

  /** A one-word message already shows it: nothing is posted, the call
      raises. */
  lemma SendMessageChainAsWrittenFails()
    ensures MessagePieces(["hi"]) == ["hi"]
    ensures SendMessageChainAsWritten(["hi"]) == Failure(MissingAttribute("apiLock"))
  {
    assert ["hi"][1..] == [];
  }
}
